=== FILE: README.md ===
# cluster-magic supervisor core, modelled in Dafny

cluster-magic is a supervisor for Node's `cluster` module. A master process
forks a pool of workers that all run the same application. It keeps the pool
alive by restarting workers that die unexpectedly, delaying restarts during a
crash loop. On SIGTERM/SIGINT it shuts the pool down gracefully, with a kill
timeout per worker. On SIGHUP it replaces every worker without downtime (a
"hot reload").

This project models the sequential decision logic under that process
plumbing. It uses immutable datatypes and pure transition functions.
- Forks, kills, disconnects and `process.exit` are emitted as *actions*.
- Timer expiries, signals, worker exits and `listening` notifications arrive
  as *events*.
- Promises are represented by their settlement state (`Promises.Settlement`).

Modules, following the source files:
- `WorkerCount` (`worker_count.dfy`) covers the worker count resolved at
  startup (cluster-magic.js).
- `Backoff` (`backoff.dfy`) covers the restart counter, its per-minute decay
  and the delay every start computes (lib/worker-manager.js).
- `GracefulStop` (`graceful_stop.dfy`) covers `stopWorker`, where the
  disconnect races the kill timer, plus `shutdown` and
  `setWorkerShutdownTimeout` (lib/worker-manager.js).
- `HotReload` (`hot_reload.dfy`) covers the rolling reload (lib/hot-reload.js).
- `Supervisor` (`supervisor.dfy`) covers startup, the `exit` handler, the
  SIGHUP reentrancy flag and the SIGTERM/SIGINT handlers (cluster-magic.js).
- `Promises`, `Cluster` and `Wrappers` hold shared vocabulary:
  - `Promise.all` and a logging `.catch`;
  - the `cluster.workers` lookup;
  - `Option`.

Behaviour of the code that is easy to misread:
- The default worker count (`2 × cpus`) is not clamped to [2,50]. It exceeds
  50 on more than 25 CPUs and is 0 when no CPU is reported.
- A reload resolves once every replacement is *spawned*. It does not wait
  for the originals to stop.
- Readiness means the replacement's `listening` event. No other readiness
  signal exists.
- `stopWorker` is not idempotent. Each call arms its own timer.
- Nothing resets the reload flag except the reload resolving. The reload
  never rejects, because it awaits only `start()`, which never rejects.

## Model

| member | source | states |
|---|---|---|
| WorkerCount.ResolveWorkerCount | cluster-magic.js:15-20 | A non-zero explicit count wins over the environment. A non-zero parsable environment value is used only when the explicit count is 0 or absent. The chosen value is kept only inside [2,50], else the count is `2 × cpus`. The result is never negative. |
| WorkerCount.ExplicitInRangeIsUsed | cluster-magic.js:15-20 | An explicit count in [2,50] is used unchanged, whatever the environment holds. |
| WorkerCount.FalsyExplicitDefersToEnv | cluster-magic.js:15 | An explicit count of 0, or none, gives the same result as no explicit count. An in-range environment value is then used. |
| WorkerCount.NothingConfiguredYieldsDefault | cluster-magic.js:15-19 | With no truthy explicit or environment value (NaN included) the requested count is 0, and the result is the default. |
| WorkerCount.ExplicitOutOfRangeIgnoresEnv | cluster-magic.js:15-19 | A non-zero explicit count outside [2,50] yields the default. It does not fall back to the environment value. |
| WorkerCount.InRangeExactly | cluster-magic.js:4-20 | The result is in [2,50] exactly when the requested count or the default is. The default is not clamped: 26 CPUs give 52 workers and 0 CPUs give 0. |
| Backoff.Tick | lib/worker-manager.js:7-13 | A minute lowers the counter by at most one. The counter is unchanged exactly when it is already 0, so it never goes negative. |
| Backoff.RestartDelay | lib/worker-manager.js:19-30 | The delay is 0 exactly when the counter is at most 10. Otherwise it is 200 ms per recorded death, so at least 2.2 s. |
| Backoff.Start | lib/worker-manager.js:16-30 | An error-triggered start records exactly one death. A plain start leaves the counter as it is. The delay is taken from the counter after the increment. |
| Backoff.DelayMonotone | lib/worker-manager.js:28-30 | The delay never decreases as the counter grows. |
| Backoff.DelayGrowsLinearly | lib/worker-manager.js:28-30 | Above the threshold, each extra death adds exactly 200 ms. |
| Backoff.DelayUnbounded | lib/worker-manager.js:28-30 | For every bound, some counter value gives a larger delay. |
| Backoff.PlainStartIsDelayedInCrashLoop | lib/worker-manager.js:27-46 | Above the threshold, a start not caused by an error is still delayed by `200 × counter` and leaves the counter unchanged. |
| Backoff.EleventhDeathIsFirstDelayed | lib/worker-manager.js:22-30 | Because the increment comes first, the eleventh recent death is the first delayed one, by 2200 ms. The tenth is not delayed. |
| Backoff.RunUpperBound | lib/worker-manager.js:8-25 | Over any sequence of minutes and starts, the counter rises by at most the number of error-triggered starts. |
| Backoff.RunLowerBound | lib/worker-manager.js:8-25 | Over any sequence, the counter falls by at most one per minute below its start value plus the error-triggered starts. |
| Backoff.QuietMinutesDecay | lib/worker-manager.js:8-12 | With only minutes elapsing, the counter drops by one per minute down to 0 and stays there. |
| GracefulStop.SetWorkerShutdownTimeout | lib/worker-manager.js:85-87 | The configured timeout becomes the given value. |
| GracefulStop.SubsequentStopsUseNewTimeout | lib/worker-manager.js:54-60 | A stop begun after the timeout is changed arms its kill timer with the new value. A stop already awaiting keeps the timeout it armed. |
| GracefulStop.Outcome | lib/worker-manager.js:51-75 | The stop's promise is pending exactly while awaiting. It is fulfilled exactly after a disconnect and rejected otherwise. |
| GracefulStop.BeginStop | lib/worker-manager.js:51-74 | A stop arms the kill timer first, with the timeout configured at call time, and asks the worker to disconnect. It is unsettled, and nothing is killed. |
| GracefulStop.BeginStopOn | lib/worker-manager.js:51-63 | A stop on a registered worker is an ordinary stop. A stop on `undefined` only arms the timer, and its promise is already rejected. |
| GracefulStop.Step | lib/worker-manager.js:54-70 | The first event settles an awaiting stop. A disconnect fulfils it, the timer rejects it, and a kill is issued only on the timer, only for the stop's own worker. No event brings a stop back to awaiting, and a settled promise never changes. An orphaned timer ignores a disconnect, because no listener was registered. When it fires, it crashes the supervisor. |
| GracefulStop.FinalIsAbsorbing | lib/worker-manager.js:63-70 | A settled stop stays as it is and issues nothing, whatever events follow. |
| GracefulStop.FirstEventWins | lib/worker-manager.js:54-73 | For any event sequence, a disconnect first resolves with no kill. A timeout first kills exactly once and rejects. Later events change nothing. |
| GracefulStop.RealStopNeverCrashes | lib/worker-manager.js:54-70 | A stop begun on a registered worker never crashes the supervisor, under any events. |
| GracefulStop.OrphanTimerCrashes | lib/worker-manager.js:54-63 | A stop on `undefined` whose timer fires throws an uncaught TypeError. |
| GracefulStop.BeginShutdown | lib/worker-manager.js:78-82 | Shutdown begins one stop for every worker registered at call time, in order. Each stop uses the current timeout and is asked to disconnect. Nothing is killed yet. |
| GracefulStop.ShutdownStep | lib/worker-manager.js:81 | An event for one worker's stop changes that stop only. It appends exactly that stop's actions, such as the kill of a worker whose timer fired. |
| GracefulStop.ShutdownStopsAreIndependent | lib/worker-manager.js:54-81 | Over any interleaving of events during a shutdown, each stop ends where its own events take it. Every kill of a worker comes from the one stop still waiting on it. |
| GracefulStop.ShutdownKillsExactlyTimedOut | lib/worker-manager.js:54-81 | During a shutdown over distinct registered workers, under any interleaving, a worker is killed exactly when the first event its stop sees is the timer, and then exactly once. Its stop stays pending until that first event, which decides it. |
| GracefulStop.ShutdownNeverRejects | lib/worker-manager.js:78-82 | Shutdown never rejects, even when workers are killed. It resolves exactly when no stop is still awaiting. |
| Promises.Catch | lib/worker-manager.js:81 | A logging `.catch` never rejects, settles exactly when its input does, and maps a rejection to `undefined`. |
| Promises.All | lib/hot-reload.js:12 | `Promise.all` rejects exactly when some member rejects. It fulfils exactly when all members fulfil, with their values in order. |
| Promises.AllCaughtNeverRejects | lib/worker-manager.js:81 | `Promise.all` over caught promises never rejects. It fulfils exactly when every member has settled. |
| Backoff.PlainStarts | lib/worker-manager.js:16-30 | Plain starts made together leave the counter unchanged, and each is delayed by the current counter's delay. |
| HotReload.Begin | lib/hot-reload.js:9-14 | The snapshot is the registry at call time. Exactly one plain start is issued per snapshot entry. The starts leave the restart counter unchanged. Each is delayed by the current counter's delay, so during a crash loop the replacements are delayed too. |
| HotReload.ResolvesOnceAllSpawned | lib/hot-reload.js:12-28 | The reload never rejects. It resolves exactly when every replacement is spawned, independent of any stop. |
| HotReload.Step | lib/hot-reload.js:12-27 | One event changes only the entry it addresses and keeps every original. A spawn moves a spawning entry to awaiting `listening` on its replacement. A spawn for any other entry changes nothing. The first `listening` moves the entry on and issues one stop, only after the spawn. As written, the stop targets whatever the registry lookup yields, `undefined` included. The corrected handler instead skips an original that has left the registry and issues nothing. Finished entries never change. |
| HotReload.RunKeepsSnapshot | lib/hot-reload.js:9 | No later event changes which workers the reload replaces. Workers added later are not replaced. Proved for the as-written and the corrected handler alike. |
| HotReload.StopsMatchPhase | lib/hot-reload.js:17-23 | Over any run, an entry gets a stop exactly when it enters `StopIssued`, and it stays there. Proved for the as-written and the corrected handler alike. |
| HotReload.AtMostOneStopPerOriginal | lib/hot-reload.js:17-23 | Each original in the snapshot is stopped at most once per reload. Proved for the as-written and the corrected handler alike. |
| HotReload.StopFollowsListening | lib/hot-reload.js:17-23 | An original is stopped only if its replacement has emitted `listening`. Proved for the as-written and the corrected handler alike. |
| HotReload.StopFollowsSpawnThenListening | lib/hot-reload.js:14-23 | For an entry still spawning, a stop comes only after the replacement's spawn and then its `listening`, in that order. Proved for the as-written and the corrected handler alike. |
| HotReload.NeverListeningNeverStopped | lib/hot-reload.js:17 | If a replacement never emits `listening`, its original is never stopped. Proved for the as-written and the corrected handler alike. |
| HotReload.ResolvesAfterEverySpawn | lib/hot-reload.js:12-28 | With either handler, once every replacement's spawn has been reported, the reload has resolved, whatever else happened. |
| HotReload.SpawnedEntryLeavesSpawning | lib/hot-reload.js:12-14 | An entry whose replacement spawn has been reported is no longer spawning, and no later event puts it back. |
| HotReload.CompletesBeforeAnyStop | lib/hot-reload.js:12-28 | A two-worker reload has resolved once both replacements are spawned, with no stop issued yet. |
| HotReload.AsWrittenAgreesWhileOriginalRegistered | lib/hot-reload.js:19-23 | While the original is still registered, the as-written handler and the corrected one behave identically. |
| HotReload.AsWrittenCrashesAfterOriginalExit | lib/hot-reload.js:19-26 | As written, a replacement that listens after its original crashed stops `undefined`. When that stop's timer fires, the supervisor crashes. |
| HotReload.CorrectedNeverStopsUndefined | lib/hot-reload.js:19-23 | The corrected handler skips the exited original. Every stop it issues targets a registered worker, so none can crash the supervisor. |
| Supervisor.Initialize | cluster-magic.js:12-99 | Startup leaves the reload flag clear and the counter at 0. It issues exactly the resolved number of plain starts in one tick, none of them delayed. |
| Supervisor.Step | cluster-magic.js:31-91 | The reload flag changes only on SIGHUP (raised) or on the reload resolving (cleared). A reload starts exactly on SIGHUP while idle. The counter rises and a worker is spawned exactly on an unplanned exit. A minute lowers the counter by the tick and does nothing else. A resolved reload clears the flag, changes nothing else and issues nothing. Exit code 0 follows exactly a resolved shutdown. A shutdown starts exactly on SIGTERM or SIGINT. |
| Supervisor.PlannedExitNeverRestarts | cluster-magic.js:72-75 | An exit after a planned disconnect changes nothing and spawns nothing. |
| Supervisor.UnplannedExitRestartsOnce | cluster-magic.js:77-90 | Any other exit, by signal or by code alike, issues exactly one error-triggered start. It records one death, delayed by the incremented counter's delay. |
| Supervisor.TerminateSignalsAgree | cluster-magic.js:31-46 | SIGTERM and SIGINT act identically: shut down all workers, then exit with code 0 once that resolves. |
| Supervisor.HangupWhileReloadingIgnored | cluster-magic.js:53-56 | A SIGHUP during a reload changes nothing and starts nothing. |
| Supervisor.HangupWhileIdleStartsOneReload | cluster-magic.js:59-66 | A SIGHUP while idle raises the flag and starts exactly one reload. |
| Supervisor.FlagHeldUntilResolved | cluster-magic.js:59-66 | Once raised, the flag stays raised and no reload starts until a reload resolves. |
| Supervisor.ReloadsBoundedByResolutions | cluster-magic.js:49-67 | Over any run, started reloads exceed resolved reloads by at most one, so at most one reload is in flight. |
| Supervisor.RestartOutcome | cluster-magic.js:86-90 | The restart's `.catch` never lets a rejection through. It settles exactly when the restart does. |
| Supervisor.FirstCrashRestartsImmediately | cluster-magic.js:70-90 | A worker killed by a signal, with no recent deaths, gets one immediate replacement, and the counter becomes 1. |

## Left out

- `cluster.fork`, `worker.kill`, `worker.disconnect` and `process.exit` are foreign runtime calls. They appear only as emitted actions.
- The timers (`setTimeout`, `setInterval`) are modelled as events: `MinuteElapsed`, `TimeoutFired`, and the `delay` carried by a spawn action. Wall-clock time is not modelled.
- Signal registration, every log call and its text, and the `listening` log handler (cluster-magic.js:94-96) are not modelled. They have no effect on state.
- `os.cpus()` is a parameter. `parseInt` of the environment variable is an `Option<int>`, with `None` for NaN. A non-integer or string `numWorkers` option is not modelled.
- The `isNaN` test (cluster-magic.js:18) has no counterpart. For the integer and NaN inputs modelled here it cannot hold, because `x || 0` is never NaN. A truthy non-numeric `numWorkers` such as `"abc"` would reach it, but such inputs are not modelled.
- `init` (cluster-magic.js:102-119) dispatches between master and worker and logs the startup result. It is not part of this model.
- Concurrent interleavings of restarts, reloads and shutdowns are not modelled. Each module models single-event transitions. The hot reload receives the registry as it stands at each event instead of sharing it with the other modules.
- Stopping the same worker twice (a shutdown during a reload) arms two timers in the source. This model does not relate separate stops of one worker.
- A fork that throws is not modelled. `cluster.fork()` runs inside the start's `setTimeout` callback (lib/worker-manager.js:37-41), outside the promise executor. A throw there is an uncaught exception that ends the supervisor, the same way an orphaned kill timer does (`GracefulStop.Crashed`). The promise of `start()` never rejects. So the `.catch` at cluster-magic.js:88, modelled by `Supervisor.RestartOutcome` for any settlement, can never observe a failed restart.
- Replacement worker ids are taken to be fresh. Spawn and listening events name their snapshot entry by index.
- Rejection reasons (the timeout error message) are not modelled. A promise is only unsettled, fulfilled or rejected.
- `examples/app.js` and `examples/startup.js` are a demo application and bootstrap glue. They are not part of this model.

## Findings

| source | as written | input that shows it | evidently intended | confidence | as-written member | corrected member |
|---|---|---|---|---|---|---|
| lib/hot-reload.js:19-23 | The `listening` handler stops `cluster.workers[workerID]` without checking that the original is still registered. `stopWorker(undefined)` arms the kill timer before its executor throws. The rejection is caught, but when the timer fires, `kill` on `undefined` throws outside any handler. | Reload with worker 1 registered. Replacement 2 is spawned. Worker 1 crashes and leaves the registry. Worker 2 emits `listening`. The kill timer fires after the shutdown timeout. | Skip the stop when the original is no longer registered, because the exit handler has already replaced it. | medium; not executed | HotReload.AsWrittenCrashesAfterOriginalExit | HotReload.CorrectedNeverStopsUndefined |

=== FILE: backoff.dfy ===
/** The restart backoff tracker of lib/worker-manager.js: `_restartCounter`,
    its once-per-minute decay, and the delay every `startWorker` computes. */
module Backoff {

  /** Above this many recent unplanned deaths every start is delayed. */
  const DelayThreshold: nat := 10
  /** Milliseconds of delay per recorded death once above the threshold. */
  const DelayPerRestart: nat := 200

  datatype Tracker = Tracker(restarts: nat)

  const Initial := Tracker(0)

  /** The `setInterval` callback: decrement, floored at zero. */
  function Tick(t: Tracker): (t': Tracker)
    ensures t'.restarts <= t.restarts <= t'.restarts + 1
    ensures t'.restarts == t.restarts <==> t.restarts == 0
  {
    if t.restarts > 0 then Tracker(t.restarts - 1) else t
  }

  /** The start delay in milliseconds for a given counter value. */
  function RestartDelay(restarts: nat): (ms: nat)
    ensures ms == 0 <==> restarts <= DelayThreshold
    ensures ms != 0 ==> ms == DelayPerRestart * restarts
    ensures ms != 0 ==> ms >= DelayPerRestart * (DelayThreshold + 1)
  {
    if restarts > DelayThreshold then DelayPerRestart * restarts else 0
  }

  datatype StartDecision = StartDecision(tracker: Tracker, delay: nat)

  /** `startWorker(triggeredByError)` up to the fork: an error-triggered start
      records a death first, then the delay is taken from the updated counter.
      Every start is delayed, error-triggered or not. */
  function Start(t: Tracker, triggeredByError: bool): (d: StartDecision)
    ensures triggeredByError ==> d.tracker.restarts == t.restarts + 1
    ensures !triggeredByError ==> d.tracker == t
    ensures d.delay == RestartDelay(d.tracker.restarts)
  {
    var t' := if triggeredByError then Tracker(t.restarts + 1) else t;
    StartDecision(t', RestartDelay(t'.restarts))
  }

  datatype Starts = Starts(tracker: Tracker, delays: seq<nat>)

  /** `n` plain `start()` calls made one after another in the same tick:
      none of them records a death, so the counter is left as it was and
      every start is delayed by the delay of the current counter. */
  function PlainStarts(t: Tracker, n: nat): (s: Starts)
    ensures s.tracker == t
    ensures |s.delays| == n
    ensures forall i :: 0 <= i < n ==> s.delays[i] == RestartDelay(t.restarts)
    decreases n
  {
    if n == 0 then Starts(t, [])
    else
      var first := Start(t, false);
      var rest := PlainStarts(first.tracker, n - 1);
      Starts(rest.tracker, [first.delay] + rest.delays)
  }

  /** The delay never decreases as the counter grows. */
  lemma DelayMonotone(a: nat, b: nat)
    requires a <= b
    ensures RestartDelay(a) <= RestartDelay(b)
  {
  }

  /** Above the threshold each further death adds exactly 200 ms. */
  lemma DelayGrowsLinearly(restarts: nat)
    requires restarts > DelayThreshold
    ensures RestartDelay(restarts + 1) == RestartDelay(restarts) + DelayPerRestart
  {
  }

  /** The delay has no upper bound. */
  lemma DelayUnbounded(bound: nat)
    ensures RestartDelay(bound / DelayPerRestart + DelayThreshold + 1) > bound
  {
  }

  /** A start that is not caused by an error leaves the counter alone but is
      still delayed once the counter exceeds the threshold. */
  lemma PlainStartIsDelayedInCrashLoop(t: Tracker)
    requires t.restarts > DelayThreshold
    ensures Start(t, false).tracker == t
    ensures Start(t, false).delay == DelayPerRestart * t.restarts
  {
  }

  /** The increment precedes the delay: the eleventh recent death is the
      first one that is delayed, by 2.2 s. */
  lemma EleventhDeathIsFirstDelayed()
    ensures Start(Tracker(9), true).delay == 0
    ensures Start(Tracker(10), true).delay == 2200
  {
  }

  /** What can happen to the counter: a minute elapses, or a worker start. */
  datatype Event = MinuteElapsed | Started(triggeredByError: bool)

  function Step(t: Tracker, e: Event): Tracker
  {
    match e
    case MinuteElapsed => Tick(t)
    case Started(byError) => Start(t, byError).tracker
  }

  function Run(t: Tracker, es: seq<Event>): Tracker
    decreases |es|
  {
    if |es| == 0 then t else Run(Step(t, es[0]), es[1..])
  }

  function ErrorStarts(es: seq<Event>): nat
    decreases |es|
  {
    if |es| == 0 then 0
    else (if es[0] == Started(true) then 1 else 0) + ErrorStarts(es[1..])
  }

  function Minutes(es: seq<Event>): nat
    decreases |es|
  {
    if |es| == 0 then 0
    else (if es[0] == MinuteElapsed then 1 else 0) + Minutes(es[1..])
  }

  /** Only error-triggered starts raise the counter. */
  lemma {:induction false} RunUpperBound(t: Tracker, es: seq<Event>)
    ensures Run(t, es).restarts <= t.restarts + ErrorStarts(es)
    decreases |es|
  {
    if |es| > 0 {
      RunUpperBound(Step(t, es[0]), es[1..]);
    }
  }

  /** Each minute removes at most one recorded death. */
  lemma {:induction false} RunLowerBound(t: Tracker, es: seq<Event>)
    ensures Run(t, es).restarts + Minutes(es) >= t.restarts + ErrorStarts(es)
    decreases |es|
  {
    if |es| > 0 {
      RunLowerBound(Step(t, es[0]), es[1..]);
    }
  }

  /** Without further deaths the counter decays by one per minute down to 0. */
  lemma {:induction false} QuietMinutesDecay(t: Tracker, es: seq<Event>)
    requires forall i :: 0 <= i < |es| ==> es[i] == MinuteElapsed
    ensures Run(t, es).restarts == if t.restarts >= |es| then t.restarts - |es| else 0
    decreases |es|
  {
    if |es| > 0 {
      QuietMinutesDecay(Step(t, es[0]), es[1..]);
    }
  }
}

=== FILE: cluster.dfy ===
/** The part of the process runtime's worker registry (`cluster.workers`)
    that the supervisor reads: which worker ids are currently registered. */
module Cluster {
  import opened Wrappers

  /** The id the runtime assigns to a forked worker; it is the registry key. */
  type WorkerId = nat

  /** The keys of the registry in enumeration order. A worker is removed
      from it once it has both disconnected and exited. */
  type Registry = seq<WorkerId>

  /** Object keys: no id is listed twice. */
  predicate Distinct(registry: Registry)
  {
    forall j, k :: 0 <= j < k < |registry| ==> registry[j] != registry[k]
  }

  /** `cluster.workers[id]`: the worker while it is registered, `undefined`
      once it has left the registry. */
  function Lookup(registry: Registry, id: WorkerId): (w: Option<WorkerId>)
    ensures w.Some? <==> id in registry
    ensures w.Some? ==> w.value == id
  {
    if id in registry then Some(id) else None
  }
}

=== FILE: graceful_stop.dfy ===
/** Graceful worker stop with a kill timeout (`stopWorker`), bulk shutdown
    (`shutdown`) and the configurable timeout (`setWorkerShutdownTimeout`)
    of lib/worker-manager.js. The kill timer and the worker's `disconnect`
    event race; the first to arrive decides the outcome. */
module GracefulStop {
  import opened Wrappers
  import opened Cluster
  import opened Promises

  /** Milliseconds before a worker that has not disconnected is killed. */
  const DefaultShutdownTimeout: nat := 10 * 1000

  datatype Config = Config(shutdownTimeout: nat)

  const InitialConfig := Config(DefaultShutdownTimeout)

  /** Replaces the timeout armed by every later stop. */
  function SetWorkerShutdownTimeout(c: Config, timeout: nat): (c': Config)
    ensures c'.shutdownTimeout == timeout
  {
    c.(shutdownTimeout := timeout)
  }

  /** One call of `stopWorker`. `OrphanTimer` and `Crashed` arise only when
      the call is given `undefined` instead of a worker: the kill timer is
      armed before the executor throws, so the promise rejects while the timer
      stays armed, and when it fires `kill` on `undefined` throws a TypeError
      that nothing catches. */
  datatype Stop =
    | Awaiting(worker: WorkerId, timeout: nat)
    | Disconnected(worker: WorkerId)
    | KilledByTimeout(worker: WorkerId)
    | OrphanTimer(timeout: nat)
    | Crashed

  datatype Event = DisconnectEvent | TimeoutFired

  /** What the supervisor asks of the runtime, or, for `UncaughtTypeError`,
      an exception escaping a timer callback, which ends the supervisor. */
  datatype Action =
    | ArmKillTimer(ms: nat)
    | RequestDisconnect(worker: WorkerId)
    | CancelKillTimer
    | Kill(worker: WorkerId)
    | UncaughtTypeError

  datatype Transition = Transition(stop: Stop, actions: seq<Action>)

  /** The state of the promise `stopWorker` returned. */
  function Outcome(s: Stop): (p: Settlement<()>)
    ensures p.Unsettled? <==> s.Awaiting?
    ensures p.Fulfilled? <==> s.Disconnected?
  {
    match s
    case Awaiting(_, _) => Unsettled
    case Disconnected(_) => Fulfilled(())
    case _ => Rejected
  }

  function Kills(actions: seq<Action>): nat
    decreases |actions|
  {
    if |actions| == 0 then 0
    else (if actions[0].Kill? then 1 else 0) + Kills(actions[1..])
  }

  /** How often `actions` kills worker `w`. */
  function KillsOf(w: WorkerId, actions: seq<Action>): nat
    decreases |actions|
  {
    if |actions| == 0 then 0
    else (if actions[0] == Kill(w) then 1 else 0) + KillsOf(w, actions[1..])
  }

  lemma {:induction false} KillsOfAppend(w: WorkerId, a: seq<Action>, b: seq<Action>)
    ensures KillsOf(w, a + b) == KillsOf(w, a) + KillsOf(w, b)
    decreases |a|
  {
    if |a| == 0 {
      assert a + b == b;
    } else {
      assert (a + b)[1..] == a[1..] + b;
      KillsOfAppend(w, a[1..], b);
    }
  }

  /** A worker is killed no more often than workers are killed at all. */
  lemma {:induction false} KillsOfAtMostKills(w: WorkerId, actions: seq<Action>)
    ensures KillsOf(w, actions) <= Kills(actions)
    decreases |actions|
  {
    if |actions| > 0 {
      KillsOfAtMostKills(w, actions[1..]);
    }
  }

  lemma {:induction false} KillsAppend(a: seq<Action>, b: seq<Action>)
    ensures Kills(a + b) == Kills(a) + Kills(b)
    decreases |a|
  {
    if |a| == 0 {
      assert a + b == b;
    } else {
      assert (a + b)[1..] == a[1..] + b;
      KillsAppend(a[1..], b);
    }
  }

  /** `stopWorker(worker)`: arm the kill timer with the timeout configured at
      call time, then ask the worker to disconnect. Nothing is settled or
      killed yet. */
  function BeginStop(c: Config, w: WorkerId): (t: Transition)
    ensures Outcome(t.stop) == Unsettled
    ensures t.stop.timeout == c.shutdownTimeout
    ensures |t.actions| > 0 && t.actions[0] == ArmKillTimer(c.shutdownTimeout)
    ensures RequestDisconnect(w) in t.actions
    ensures Kills(t.actions) == 0
  {
    var actions := [ArmKillTimer(c.shutdownTimeout), RequestDisconnect(w)];
    assert Kills(actions[1..][1..]) == 0 by { assert actions[1..][1..] == []; }
    assert Kills(actions[1..]) == 0;
    Transition(Awaiting(w, c.shutdownTimeout), actions)
  }

  /** `stopWorker(cluster.workers[id])`: when the lookup yields `undefined`
      only the timer is armed, and the returned promise is already rejected. */
  function BeginStopOn(c: Config, target: Option<WorkerId>): (t: Transition)
    ensures target.Some? ==> t == BeginStop(c, target.value)
    ensures target.None? ==> Outcome(t.stop) == Rejected && t.stop.OrphanTimer?
    ensures target.None? ==> t.actions == [ArmKillTimer(c.shutdownTimeout)]
  {
    match target
    case Some(w) => BeginStop(c, w)
    case None => Transition(OrphanTimer(c.shutdownTimeout), [ArmKillTimer(c.shutdownTimeout)])
  }

  /** One event. While awaiting, the first event settles the stop: a
      disconnect cancels the timer and resolves, the timer kills and rejects.
      Settled stops ignore everything (the timer was cancelled; a late
      `disconnect` only re-resolves a settled promise). An orphaned stop has
      no `disconnect` listener, so only its timer does anything. */
  function Step(s: Stop, e: Event): (t: Transition)
    ensures s.Awaiting? ==> Settled(Outcome(t.stop))
    ensures !t.stop.Awaiting?
    ensures Settled(Outcome(s)) ==> Outcome(t.stop) == Outcome(s)
    ensures s.Awaiting? ==> (Outcome(t.stop).Fulfilled? <==> e == DisconnectEvent)
    ensures Kills(t.actions) == (if s.Awaiting? && e == TimeoutFired then 1 else 0)
    ensures !s.Awaiting? && !s.OrphanTimer? ==> t == Transition(s, [])
    ensures t.stop.Crashed? <==> s.Crashed? || (s.OrphanTimer? && e == TimeoutFired)
    ensures s.OrphanTimer? ==>
              t == (if e == TimeoutFired then Transition(Crashed, [UncaughtTypeError]) else Transition(s, []))
    ensures forall k :: 0 <= k < |t.actions| && t.actions[k].Kill? ==>
              s.Awaiting? && t.actions[k] == Kill(s.worker)
  {
    match s
    case Awaiting(w, _) =>
      if e == DisconnectEvent then Transition(Disconnected(w), [CancelKillTimer])
      else
        assert e == TimeoutFired;
        assert Kills([Kill(w)]) == 1 by { assert [Kill(w)][1..] == []; }
        Transition(KilledByTimeout(w), [Kill(w)])
    case OrphanTimer(_) =>
      if e == TimeoutFired then Transition(Crashed, [UncaughtTypeError])
      else Transition(s, [])
    case _ => Transition(s, [])
  }

  function Run(s: Stop, es: seq<Event>): Transition
    decreases |es|
  {
    if |es| == 0 then Transition(s, [])
    else
      var first := Step(s, es[0]);
      var rest := Run(first.stop, es[1..]);
      Transition(rest.stop, first.actions + rest.actions)
  }

  predicate Final(s: Stop)
  {
    s.Disconnected? || s.KilledByTimeout? || s.Crashed?
  }

  /** A settled stop stays settled and issues nothing more. */
  lemma {:induction false} FinalIsAbsorbing(s: Stop, es: seq<Event>)
    requires Final(s)
    ensures Run(s, es) == Transition(s, [])
    decreases |es|
  {
    if |es| > 0 {
      FinalIsAbsorbing(s, es[1..]);
    }
  }

  /** First event wins: whatever follows, the outcome is the one the first
      event decided, and the worker is killed exactly when the timer came
      first, and then exactly once. */
  lemma FirstEventWins(w: WorkerId, timeout: nat, es: seq<Event>)
    requires |es| > 0
    ensures es[0] == DisconnectEvent ==>
      Run(Awaiting(w, timeout), es) == Transition(Disconnected(w), [CancelKillTimer])
    ensures es[0] == TimeoutFired ==>
      Run(Awaiting(w, timeout), es) == Transition(KilledByTimeout(w), [Kill(w)])
    ensures Kills(Run(Awaiting(w, timeout), es).actions) == (if es[0] == TimeoutFired then 1 else 0)
    ensures Outcome(Run(Awaiting(w, timeout), es).stop) == (if es[0] == DisconnectEvent then Fulfilled(()) else Rejected)
  {
    var first := Step(Awaiting(w, timeout), es[0]);
    FinalIsAbsorbing(first.stop, es[1..]);
    assert first.actions + [] == first.actions;
  }

  /** A stop begun on a real worker never crashes the supervisor, whatever
      events follow. */
  lemma {:induction false} RealStopNeverCrashes(s: Stop, es: seq<Event>)
    requires s.Awaiting? || s.Disconnected? || s.KilledByTimeout?
    ensures !Run(s, es).stop.Crashed?
    ensures UncaughtTypeError !in Run(s, es).actions
    decreases |es|
  {
    if |es| > 0 {
      var first := Step(s, es[0]);
      RealStopNeverCrashes(first.stop, es[1..]);
    }
  }

  /** A stop on `undefined` whose timer fires ends the supervisor. */
  lemma OrphanTimerCrashes(c: Config)
    ensures Run(BeginStopOn(c, None).stop, [TimeoutFired])
            == Transition(Crashed, [UncaughtTypeError])
  {
  }

  /** The timeout in force when a stop begins is the one it arms; changing
      the configuration later does not touch stops already awaiting. */
  lemma SubsequentStopsUseNewTimeout(c: Config, timeout: nat, w: WorkerId)
    ensures BeginStop(SetWorkerShutdownTimeout(c, timeout), w).stop == Awaiting(w, timeout)
    ensures BeginStop(SetWorkerShutdownTimeout(c, timeout), w).actions[0] == ArmKillTimer(timeout)
  {
  }

  datatype Shutdown = Shutdown(stops: seq<Stop>, actions: seq<Action>)

  /** `shutdown()`: one stop per worker registered at call time. */
  function BeginShutdown(c: Config, registry: Registry): (r: Shutdown)
    ensures |r.stops| == |registry|
    ensures forall i :: 0 <= i < |registry| ==> r.stops[i] == Awaiting(registry[i], c.shutdownTimeout)
    ensures forall w :: w in registry ==> RequestDisconnect(w) in r.actions
    ensures Kills(r.actions) == 0
    decreases |registry|
  {
    if |registry| == 0 then Shutdown([], [])
    else
      var first := BeginStop(c, registry[0]);
      var rest := BeginShutdown(c, registry[1..]);
      KillsAppend(first.actions, rest.actions);
      Shutdown([first.stop] + rest.stops, first.actions + rest.actions)
  }

  /** Delivers one event to the stop of the `i`-th worker. */
  function ShutdownStep(sd: Shutdown, i: nat, e: Event): (r: Shutdown)
    requires i < |sd.stops|
    ensures |r.stops| == |sd.stops|
    ensures forall j :: 0 <= j < |sd.stops| && j != i ==> r.stops[j] == sd.stops[j]
    ensures r.stops[i] == Step(sd.stops[i], e).stop
    ensures r.actions == sd.actions + Step(sd.stops[i], e).actions
  {
    var t := Step(sd.stops[i], e);
    Shutdown(sd.stops[i := t.stop], sd.actions + t.actions)
  }

  /** An event reaching the stop of the worker at position `index`. */
  datatype Delivery = Delivery(index: nat, event: Event)

  /** Delivers a sequence of events to the stops of a shutdown. */
  function RunShutdown(sd: Shutdown, ds: seq<Delivery>): (r: Shutdown)
    requires forall k :: 0 <= k < |ds| ==> ds[k].index < |sd.stops|
    ensures |r.stops| == |sd.stops|
    decreases |ds|
  {
    if |ds| == 0 then sd
    else RunShutdown(ShutdownStep(sd, ds[0].index, ds[0].event), ds[1..])
  }

  /** The events among `ds` that reach the stop at position `i`, in order. */
  function EventsFor(ds: seq<Delivery>, i: nat): seq<Event>
    decreases |ds|
  {
    if |ds| == 0 then []
    else (if ds[0].index == i then [ds[0].event] else []) + EventsFor(ds[1..], i)
  }

  /** The stops of a shutdown run independently: stop `i` ends where its own
      events take it, and when no other stop is still waiting on worker `w`,
      every kill of `w` comes from stop `i`. */
  lemma {:induction false} ShutdownStopsAreIndependent(sd: Shutdown, ds: seq<Delivery>, i: nat, w: WorkerId)
    requires forall k :: 0 <= k < |ds| ==> ds[k].index < |sd.stops|
    requires i < |sd.stops|
    requires forall j :: 0 <= j < |sd.stops| && j != i ==> !(sd.stops[j].Awaiting? && sd.stops[j].worker == w)
    ensures RunShutdown(sd, ds).stops[i] == Run(sd.stops[i], EventsFor(ds, i)).stop
    ensures KillsOf(w, RunShutdown(sd, ds).actions)
            == KillsOf(w, sd.actions) + KillsOf(w, Run(sd.stops[i], EventsFor(ds, i)).actions)
    decreases |ds|
  {
    if |ds| == 0 {
      assert KillsOf(w, []) == 0;
    } else {
      var d := ds[0];
      var t := Step(sd.stops[d.index], d.event);
      var sd1 := ShutdownStep(sd, d.index, d.event);
      ShutdownStopsAreIndependent(sd1, ds[1..], i, w);
      KillsOfAppend(w, sd.actions, t.actions);
      if d.index == i {
        var rest := EventsFor(ds[1..], i);
        assert EventsFor(ds, i) == [d.event] + rest;
        assert ([d.event] + rest)[1..] == rest;
        KillsOfAppend(w, t.actions, Run(t.stop, rest).actions);
      } else {
        assert EventsFor(ds, i) == EventsFor(ds[1..], i);
        NoKillsOfOther(sd.stops[d.index], d.event, w);
      }
    }
  }

  /** A step of a stop not waiting on `w` never kills `w`. */
  lemma NoKillsOfOther(s: Stop, e: Event, w: WorkerId)
    requires !(s.Awaiting? && s.worker == w)
    ensures KillsOf(w, Step(s, e).actions) == 0
  {
    var t := Step(s, e);
    if s.Awaiting? {
      assert t.actions[1..] == [];
    } else {
      KillsOfAtMostKills(w, t.actions);
    }
  }

  /** During `shutdown()`, each registered worker is killed exactly when the
      first event its own stop sees is the kill timer, and then exactly once;
      its stop is pending until that first event and then settles by it,
      whatever reaches the other workers. */
  lemma ShutdownKillsExactlyTimedOut(c: Config, registry: Registry, ds: seq<Delivery>, i: nat)
    requires Distinct(registry)
    requires forall k :: 0 <= k < |ds| ==> ds[k].index < |registry|
    requires i < |registry|
    ensures var r := RunShutdown(BeginShutdown(c, registry), ds);
            var es := EventsFor(ds, i);
            KillsOf(registry[i], r.actions) == (if |es| > 0 && es[0] == TimeoutFired then 1 else 0)
            && Outcome(r.stops[i]) == (if |es| == 0 then Unsettled
                                       else if es[0] == DisconnectEvent then Fulfilled(())
                                       else Rejected)
  {
    var sd := BeginShutdown(c, registry);
    var w := registry[i];
    var es := EventsFor(ds, i);
    ShutdownStopsAreIndependent(sd, ds, i, w);
    KillsOfAtMostKills(w, sd.actions);
    if |es| == 0 {
      assert KillsOf(w, []) == 0;
    } else {
      FirstEventWins(w, c.shutdownTimeout, es);
      assert KillsOf(w, [CancelKillTimer][1..]) == 0;
      assert KillsOf(w, [Kill(w)][1..]) == 0;
    }
  }

  /** The promise `shutdown()` returns: every stop's rejection is caught. */
  function ShutdownOutcome(sd: Shutdown): Settlement<seq<Option<()>>>
  {
    AllCaught(seq(|sd.stops|, i requires 0 <= i < |sd.stops| => Outcome(sd.stops[i])))
  }

  /** `shutdown()` never rejects; it resolves once every stop has settled,
      even when every worker had to be killed. */
  lemma ShutdownNeverRejects(sd: Shutdown)
    ensures !ShutdownOutcome(sd).Rejected?
    ensures ShutdownOutcome(sd).Fulfilled? <==> forall i :: 0 <= i < |sd.stops| ==> !sd.stops[i].Awaiting?
  {
    var ps := seq(|sd.stops|, i requires 0 <= i < |sd.stops| => Outcome(sd.stops[i]));
    AllCaughtNeverRejects(ps);
    assert forall i :: 0 <= i < |sd.stops| ==> ps[i] == Outcome(sd.stops[i]);
  }
}

=== FILE: hot_reload.dfy ===
/** The rolling reload of lib/hot-reload.js. The ids registered at call time
    are the snapshot; each gets one replacement start, and the original is
    stopped when its replacement first reports `listening`. The reload's
    promise resolves once every replacement has been spawned. */
module HotReload {
  import opened Wrappers
  import opened Cluster
  import opened Promises
  import GracefulStop
  import Backoff

  /** Where the swap of one snapshot entry stands. `OriginalGone` is reached
      only by the corrected listening handler, when the original has left
      the registry before its replacement listens. */
  datatype Phase =
    | Spawning
    | AwaitingListening(replacement: WorkerId)
    | StopIssued(replacement: WorkerId)
    | OriginalGone(replacement: WorkerId)

  datatype Entry = Entry(original: WorkerId, phase: Phase)

  datatype Reload = Reload(entries: seq<Entry>)

  /** `Spawned(i, w)`: the `start()` of entry `i` resolved with worker `w`.
      `ReplacementListening(i)`: the replacement of entry `i` emitted
      `listening` (the listener is registered with `once`). */
  datatype Event = Spawned(entry: nat, replacement: WorkerId) | ReplacementListening(entry: nat)

  /** An event together with the registry as it is when the event arrives. */
  datatype Observed = Observed(event: Event, registry: Registry)

  /** `StartReplacement(i, delay)`: `start()` without the error flag, forking
      after `delay` ms. `StopOriginal(i, target)`: `stop(cluster.workers[original])`. */
  datatype Action = StartReplacement(entry: nat, delay: nat) | StopOriginal(entry: nat, target: Option<WorkerId>)

  datatype Transition = Transition(reload: Reload, actions: seq<Action>)

  /** Which `listening` handler runs: the one in the source, which stops
      whatever the registry lookup yields, or the corrected one, which skips
      an original that has already left the registry. */
  datatype Handler = AsWritten | Corrected

  predicate Stopped(e: Entry)
  {
    e.phase.StopIssued?
  }

  /** The swap of this entry is over as far as the reload is concerned. */
  predicate Done(e: Entry)
  {
    e.phase.StopIssued? || e.phase.OriginalGone?
  }

  function StopsFor(actions: seq<Action>, i: nat): nat
    decreases |actions|
  {
    if |actions| == 0 then 0
    else (if actions[0].StopOriginal? && actions[0].entry == i then 1 else 0) + StopsFor(actions[1..], i)
  }

  lemma {:induction false} StopsForAppend(a: seq<Action>, b: seq<Action>, i: nat)
    ensures StopsFor(a + b, i) == StopsFor(a, i) + StopsFor(b, i)
    decreases |a|
  {
    if |a| == 0 {
      assert a + b == b;
    } else {
      assert (a + b)[1..] == a[1..] + b;
      StopsForAppend(a[1..], b, i);
    }
  }

  datatype Begun = Begun(tracker: Backoff.Tracker, reload: Reload, actions: seq<Action>)

  /** `hotReload()` at call time: snapshot the registry and issue one plain
      `start()` per snapshot entry. The starts record no death, so the
      restart counter is unchanged, and each is delayed by the delay of the
      current counter, as any start is. */
  function Begin(t: Backoff.Tracker, registry: Registry): (b: Begun)
    ensures b.tracker == t
    ensures |b.reload.entries| == |registry| && |b.actions| == |registry|
    ensures forall i :: 0 <= i < |registry| ==> b.reload.entries[i] == Entry(registry[i], Spawning)
    ensures forall i :: 0 <= i < |registry| ==>
              b.actions[i] == StartReplacement(i, Backoff.RestartDelay(t.restarts))
  {
    var starts := Backoff.PlainStarts(t, |registry|);
    Begun(
      starts.tracker,
      Reload(seq(|registry|, i requires 0 <= i < |registry| => Entry(registry[i], Spawning))),
      seq(|registry|, i requires 0 <= i < |registry| => StartReplacement(i, starts.delays[i])))
  }

  /** The promise `hotReload()` returns: each per-entry async function
      resolves once its replacement is spawned and the listener is
      registered. Stops are not awaited. */
  function Outcome(r: Reload): Settlement<seq<()>>
  {
    All(seq(|r.entries|, i requires 0 <= i < |r.entries| =>
      if r.entries[i].phase.Spawning? then Unsettled else Fulfilled(())))
  }

  /** The reload never rejects, and it resolves exactly when every
      replacement has been spawned, whether or not any original has been
      stopped. */
  lemma ResolvesOnceAllSpawned(r: Reload)
    ensures !Outcome(r).Rejected?
    ensures Outcome(r).Fulfilled? <==> forall i :: 0 <= i < |r.entries| ==> !r.entries[i].phase.Spawning?
  {
    var ps := seq(|r.entries|, i requires 0 <= i < |r.entries| =>
      if r.entries[i].phase.Spawning? then Unsettled else Fulfilled(()));
    assert forall i :: 0 <= i < |r.entries| ==> (ps[i].Fulfilled? <==> !r.entries[i].phase.Spawning?);
  }

  /** One event. A spawn moves its entry to awaiting `listening`; the first
      `listening` of a replacement stops its original. As written, the stop
      is issued on whatever `cluster.workers[original]` yields, `undefined`
      included; corrected, an original that has left the registry is skipped. */
  function Step(h: Handler, r: Reload, o: Observed): (t: Transition)
    ensures |t.reload.entries| == |r.entries|
    ensures forall j :: 0 <= j < |r.entries| ==> t.reload.entries[j].original == r.entries[j].original
    ensures forall j :: 0 <= j < |r.entries| && j != o.event.entry ==> t.reload.entries[j] == r.entries[j]
    ensures forall j :: 0 <= j < |r.entries| && Done(r.entries[j]) ==> t.reload.entries[j] == r.entries[j]
    ensures forall j :: 0 <= j < |r.entries| && !r.entries[j].phase.Spawning? ==> !t.reload.entries[j].phase.Spawning?
    ensures forall j :: 0 <= j < |r.entries| && r.entries[j].phase.Spawning? && !t.reload.entries[j].phase.Spawning?
              ==> o.event.Spawned? && o.event.entry == j
    ensures (o.event.Spawned? && o.event.entry < |r.entries| && r.entries[o.event.entry].phase.Spawning?)
              ==> t.reload.entries[o.event.entry].phase == AwaitingListening(o.event.replacement)
    ensures (o.event.Spawned? && !(o.event.entry < |r.entries| && r.entries[o.event.entry].phase.Spawning?))
              ==> t == Transition(r, [])
    ensures forall j :: 0 <= j < |r.entries| && Stopped(t.reload.entries[j]) && !Stopped(r.entries[j])
              ==> o.event == ReplacementListening(j) && r.entries[j].phase.AwaitingListening?
    ensures (o.event.ReplacementListening? && o.event.entry < |r.entries|
             && r.entries[o.event.entry].phase.AwaitingListening?
             && (h == AsWritten || r.entries[o.event.entry].original in o.registry))
              ==> t.reload.entries[o.event.entry].phase == StopIssued(r.entries[o.event.entry].phase.replacement)
                  && t.actions == [StopOriginal(o.event.entry, Lookup(o.registry, r.entries[o.event.entry].original))]
    ensures (o.event.ReplacementListening? && o.event.entry < |r.entries|
             && r.entries[o.event.entry].phase.AwaitingListening?
             && h == Corrected && r.entries[o.event.entry].original !in o.registry)
              ==> t.reload.entries[o.event.entry].phase == OriginalGone(r.entries[o.event.entry].phase.replacement)
                  && t.actions == []
    ensures forall j :: 0 <= j < |r.entries| ==>
              StopsFor(t.actions, j) == (if Stopped(t.reload.entries[j]) && !Stopped(r.entries[j]) then 1 else 0)
    ensures forall a :: a in t.actions ==>
              a.StopOriginal? && a.entry < |r.entries| && a.target == Lookup(o.registry, r.entries[a.entry].original)
    ensures h == Corrected ==> forall a :: a in t.actions ==> a.target.Some?
  {
    match o.event
    case Spawned(i, w) =>
      if i < |r.entries| && r.entries[i].phase.Spawning? then
        Transition(Reload(r.entries[i := r.entries[i].(phase := AwaitingListening(w))]), [])
      else Transition(r, [])
    case ReplacementListening(i) =>
      if i < |r.entries| && r.entries[i].phase.AwaitingListening? then
        var e := r.entries[i];
        if h == AsWritten || e.original in o.registry then
          var actions := [StopOriginal(i, Lookup(o.registry, e.original))];
          assert actions[1..] == [];
          Transition(Reload(r.entries[i := e.(phase := StopIssued(e.phase.replacement))]), actions)
        else
          Transition(Reload(r.entries[i := e.(phase := OriginalGone(e.phase.replacement))]), [])
      else Transition(r, [])
  }

  function Run(h: Handler, r: Reload, os: seq<Observed>): Transition
    decreases |os|
  {
    if |os| == 0 then Transition(r, [])
    else
      var first := Step(h, r, os[0]);
      var rest := Run(h, first.reload, os[1..]);
      Transition(rest.reload, first.actions + rest.actions)
  }

  /** Later events never change which workers the reload replaces. */
  lemma {:induction false} RunKeepsSnapshot(h: Handler, r: Reload, os: seq<Observed>)
    ensures |Run(h, r, os).reload.entries| == |r.entries|
    ensures forall j :: 0 <= j < |r.entries| ==> Run(h, r, os).reload.entries[j].original == r.entries[j].original
    decreases |os|
  {
    if |os| > 0 {
      RunKeepsSnapshot(h, Step(h, r, os[0]).reload, os[1..]);
    }
  }

  /** Across any run, with either handler, entry `i` receives a stop exactly
      when it moves into `StopIssued`, and once there it stays. */
  lemma {:induction false} StopsMatchPhase(h: Handler, r: Reload, os: seq<Observed>, i: nat)
    requires i < |r.entries|
    ensures |Run(h, r, os).reload.entries| == |r.entries|
    ensures Done(r.entries[i]) ==> Run(h, r, os).reload.entries[i] == r.entries[i]
    ensures StopsFor(Run(h, r, os).actions, i)
            == (if Stopped(Run(h, r, os).reload.entries[i]) && !Stopped(r.entries[i]) then 1 else 0)
    decreases |os|
  {
    RunKeepsSnapshot(h, r, os);
    if |os| > 0 {
      var first := Step(h, r, os[0]);
      var rest := Run(h, first.reload, os[1..]);
      StopsMatchPhase(h, first.reload, os[1..], i);
      StopsForAppend(first.actions, rest.actions, i);
    }
  }

  /** Each original of the snapshot is stopped at most once per reload. */
  lemma AtMostOneStopPerOriginal(h: Handler, t: Backoff.Tracker, registry: Registry, os: seq<Observed>, i: nat)
    requires i < |registry|
    ensures StopsFor(Run(h, Begin(t, registry).reload, os).actions, i) <= 1
  {
    StopsMatchPhase(h, Begin(t, registry).reload, os, i);
  }

  /** No stop for entry `i` without a `listening` event of its replacement. */
  lemma {:induction false} StopFollowsListening(h: Handler, r: Reload, os: seq<Observed>, i: nat)
    requires i < |r.entries|
    requires StopsFor(Run(h, r, os).actions, i) > 0
    ensures exists k :: 0 <= k < |os| && os[k].event == ReplacementListening(i)
    decreases |os|
  {
    var first := Step(h, r, os[0]);
    var rest := Run(h, first.reload, os[1..]);
    StopsForAppend(first.actions, rest.actions, i);
    if StopsFor(first.actions, i) == 0 {
      StopFollowsListening(h, first.reload, os[1..], i);
      var k :| 0 <= k < |os[1..]| && os[1..][k].event == ReplacementListening(i);
      assert os[k + 1].event == ReplacementListening(i);
    } else {
      assert os[0].event == ReplacementListening(i);
    }
  }

  /** The ordering of a swap: for an entry still spawning, a stop of its
      original comes only after the replacement's spawn and, later still,
      the replacement's `listening` event. */
  lemma {:induction false} StopFollowsSpawnThenListening(h: Handler, r: Reload, os: seq<Observed>, i: nat)
    requires i < |r.entries| && r.entries[i].phase.Spawning?
    requires StopsFor(Run(h, r, os).actions, i) > 0
    ensures exists k1, k2 :: 0 <= k1 < k2 < |os| && os[k1].event.Spawned? && os[k1].event.entry == i
              && os[k2].event == ReplacementListening(i)
    decreases |os|
  {
    var first := Step(h, r, os[0]);
    var rest := Run(h, first.reload, os[1..]);
    StopsForAppend(first.actions, rest.actions, i);
    assert StopsFor(first.actions, i) == 0;
    if first.reload.entries[i].phase.Spawning? {
      StopFollowsSpawnThenListening(h, first.reload, os[1..], i);
      var k1, k2 :| 0 <= k1 < k2 < |os[1..]| && os[1..][k1].event.Spawned? && os[1..][k1].event.entry == i
                    && os[1..][k2].event == ReplacementListening(i);
      assert os[k1 + 1] == os[1..][k1] && os[k2 + 1] == os[1..][k2];
    } else {
      StopFollowsListening(h, first.reload, os[1..], i);
      var k :| 0 <= k < |os[1..]| && os[1..][k].event == ReplacementListening(i);
      assert os[k + 1].event == ReplacementListening(i);
    }
  }

  /** A replacement that never emits `listening` never has its original
      stopped. */
  lemma {:induction false} NeverListeningNeverStopped(h: Handler, r: Reload, os: seq<Observed>, i: nat)
    requires i < |r.entries|
    requires forall k :: 0 <= k < |os| ==> os[k].event != ReplacementListening(i)
    ensures StopsFor(Run(h, r, os).actions, i) == 0
  {
    if StopsFor(Run(h, r, os).actions, i) > 0 {
      StopFollowsListening(h, r, os, i);
    }
  }

  /** Some event of the run reports the spawn of entry `i`'s replacement. */
  predicate SpawnSeen(os: seq<Observed>, i: nat)
  {
    exists k :: 0 <= k < |os| && os[k].event.Spawned? && os[k].event.entry == i
  }

  /** An entry whose spawn has been reported is no longer spawning, and no
      later event puts it back. */
  lemma {:induction false} SpawnedEntryLeavesSpawning(h: Handler, r: Reload, os: seq<Observed>, i: nat)
    requires i < |r.entries|
    requires SpawnSeen(os, i) || !r.entries[i].phase.Spawning?
    ensures |Run(h, r, os).reload.entries| == |r.entries|
    ensures !Run(h, r, os).reload.entries[i].phase.Spawning?
    decreases |os|
  {
    RunKeepsSnapshot(h, r, os);
    if |os| > 0 {
      var first := Step(h, r, os[0]);
      if !first.reload.entries[i].phase.Spawning? {
        SpawnedEntryLeavesSpawning(h, first.reload, os[1..], i);
      } else {
        var k :| 0 <= k < |os| && os[k].event.Spawned? && os[k].event.entry == i;
        assert k != 0;
        assert os[1..][k - 1] == os[k];
        SpawnedEntryLeavesSpawning(h, first.reload, os[1..], i);
      }
    }
  }

  /** With either handler, once the spawn of every replacement has been
      reported the reload has resolved, whatever else happened. */
  lemma ResolvesAfterEverySpawn(h: Handler, t: Backoff.Tracker, registry: Registry, os: seq<Observed>)
    requires forall i :: 0 <= i < |registry| ==> SpawnSeen(os, i)
    ensures Outcome(Run(h, Begin(t, registry).reload, os).reload).Fulfilled?
  {
    var r := Begin(t, registry).reload;
    var end := Run(h, r, os).reload;
    forall i | 0 <= i < |end.entries|
      ensures !end.entries[i].phase.Spawning?
    {
      RunKeepsSnapshot(h, r, os);
      SpawnedEntryLeavesSpawning(h, r, os, i);
    }
    ResolvesOnceAllSpawned(end);
  }

  /** Completion does not wait for any original: two replacements spawned,
      neither listening yet, and the reload has resolved with no stop issued. */
  lemma CompletesBeforeAnyStop(h: Handler)
    ensures Begin(Backoff.Initial, [1, 2]).actions == [StartReplacement(0, 0), StartReplacement(1, 0)]
    ensures Outcome(Run(h, Begin(Backoff.Initial, [1, 2]).reload,
              [Observed(Spawned(0, 3), [1, 2, 3]), Observed(Spawned(1, 4), [1, 2, 3, 4])]).reload).Fulfilled?
    ensures Run(h, Begin(Backoff.Initial, [1, 2]).reload,
              [Observed(Spawned(0, 3), [1, 2, 3]), Observed(Spawned(1, 4), [1, 2, 3, 4])]).actions == []
  {
  }

  /** The as-written handler and the corrected one agree on every event
      except a `listening` that arrives after the original has left the
      registry. */
  lemma AsWrittenAgreesWhileOriginalRegistered(r: Reload, o: Observed)
    requires o.event.ReplacementListening? && o.event.entry < |r.entries| ==> r.entries[o.event.entry].original in o.registry
    ensures Step(AsWritten, r, o) == Step(Corrected, r, o)
  {
  }

  /** As written: worker 1 is snapshotted, its replacement 2 is spawned,
      worker 1 crashes and leaves the registry, then 2 listens. The handler
      stops `undefined`, and when that stop's kill timer fires the supervisor
      dies of an uncaught TypeError. */
  lemma AsWrittenCrashesAfterOriginalExit()
    ensures Run(AsWritten, Begin(Backoff.Initial, [1]).reload,
                [Observed(Spawned(0, 2), [1, 2]), Observed(ReplacementListening(0), [2])]).actions
            == [StopOriginal(0, None)]
    ensures GracefulStop.Run(GracefulStop.BeginStopOn(GracefulStop.InitialConfig, None).stop,
                             [GracefulStop.TimeoutFired]).stop == GracefulStop.Crashed
  {
  }

  /** Corrected: in the same run the exited original is skipped, and every
      stop the corrected handler issues targets a registered worker, so no
      stop it begins can crash the supervisor. */
  lemma CorrectedNeverStopsUndefined(r: Reload, o: Observed, c: GracefulStop.Config, es: seq<GracefulStop.Event>)
    ensures Run(Corrected, Begin(Backoff.Initial, [1]).reload,
                [Observed(Spawned(0, 2), [1, 2]), Observed(ReplacementListening(0), [2])]).actions == []
    ensures forall a :: a in Step(Corrected, r, o).actions ==> a.target.Some? && a.target.value in o.registry
    ensures forall a :: a in Step(Corrected, r, o).actions ==>
              !GracefulStop.Run(GracefulStop.BeginStopOn(c, a.target).stop, es).stop.Crashed?
  {
    var r1 := Step(Corrected, Begin(Backoff.Initial, [1]).reload, Observed(Spawned(0, 2), [1, 2])).reload;
    assert r1.entries == [Entry(1, AwaitingListening(2))];
    forall a | a in Step(Corrected, r, o).actions
      ensures !GracefulStop.Run(GracefulStop.BeginStopOn(c, a.target).stop, es).stop.Crashed?
    {
      GracefulStop.RealStopNeverCrashes(GracefulStop.BeginStopOn(c, a.target).stop, es);
    }
  }
}

=== FILE: promises.dfy ===
/** The observable state of JavaScript promises and the two combinators the
    supervisor relies on: `Promise.all` and a `.catch` whose handler only logs.
    Rejection reasons are log text and are not modelled. */
module Promises {
  import opened Wrappers

  datatype Settlement<+T> = Unsettled | Fulfilled(value: T) | Rejected

  predicate Settled<T>(p: Settlement<T>) {
    !p.Unsettled?
  }

  /** `p.catch(err => log(err))`: a rejection turns into a fulfilment with
      `undefined` (here `None`); a fulfilment keeps its value. */
  function Catch<T>(p: Settlement<T>): (c: Settlement<Option<T>>)
    ensures !c.Rejected?
    ensures Settled(c) <==> Settled(p)
    ensures p.Fulfilled? ==> c == Fulfilled(Some(p.value))
    ensures p.Rejected? ==> c == Fulfilled(None)
  {
    match p
    case Unsettled => Unsettled
    case Fulfilled(v) => Fulfilled(Some(v))
    case Rejected => Fulfilled(None)
  }

  /** `Promise.all(ps)`: rejected as soon as one member is rejected, fulfilled
      with all values once every member is fulfilled, pending otherwise. */
  function All<T>(ps: seq<Settlement<T>>): (r: Settlement<seq<T>>)
    ensures r.Rejected? <==> exists i :: 0 <= i < |ps| && ps[i].Rejected?
    ensures r.Fulfilled? <==> forall i :: 0 <= i < |ps| ==> ps[i].Fulfilled?
    ensures r.Fulfilled? ==> |r.value| == |ps|
    ensures r.Fulfilled? ==> forall i :: 0 <= i < |ps| ==> ps[i] == Fulfilled(r.value[i])
  {
    if |ps| == 0 then Fulfilled([])
    else
      var rest := All(ps[1..]);
      match ps[0]
      case Rejected => Rejected
      case Unsettled => if rest.Rejected? then Rejected else Unsettled
      case Fulfilled(v) =>
        match rest
        case Fulfilled(vs) => Fulfilled([v] + vs)
        case Rejected => Rejected
        case Unsettled => Unsettled
  }

  /** `Promise.all(ps.map(p => p.catch(log)))`. */
  function AllCaught<T>(ps: seq<Settlement<T>>): Settlement<seq<Option<T>>>
  {
    All(seq(|ps|, i requires 0 <= i < |ps| => Catch(ps[i])))
  }

  /** Catching every member makes the aggregate rejection-free: it is
      fulfilled exactly when every member has settled, whichever way. */
  lemma AllCaughtNeverRejects<T>(ps: seq<Settlement<T>>)
    ensures !AllCaught(ps).Rejected?
    ensures AllCaught(ps).Fulfilled? <==> forall i :: 0 <= i < |ps| ==> Settled(ps[i])
  {
    var cs := seq(|ps|, i requires 0 <= i < |ps| => Catch(ps[i]));
    assert forall i :: 0 <= i < |ps| ==> cs[i] == Catch(ps[i]);
  }
}

=== FILE: supervisor.dfy ===
/** The supervisor front door of cluster-magic.js: startup, the `exit`
    handler that restarts crashed workers, the SIGHUP reload guard and the
    SIGTERM/SIGINT shutdown. Forks, stops and the reload itself are emitted
    as actions; their progress comes back as events. */
module Supervisor {
  import opened Wrappers
  import opened Cluster
  import Promises
  import Backoff
  import WorkerCount

  datatype Signal = SIGTERM | SIGINT | SIGHUP

  /** `WorkerExited(plannedExit, code, signal)`: the runtime's `exit` event;
      `plannedExit` holds exactly when `worker.exitedAfterDisconnect === true`.
      `ReloadResolved` and `ShutdownResolved` are the settling of the promises
      the supervisor started; `MinuteElapsed` is the backoff interval. */
  datatype Event =
    | Received(sig: Signal)
    | WorkerExited(plannedExit: bool, code: Option<int>, signal: Option<string>)
    | ReloadResolved
    | ShutdownResolved
    | MinuteElapsed

  /** `SpawnWorker(byError, delay)`: a `start(byError)` that forks after
      `delay` ms. */
  datatype Action =
    | SpawnWorker(triggeredByError: bool, delay: nat)
    | ShutdownAll
    | StartReload
    | ExitProcess(code: int)

  datatype State = State(reloadInProgress: bool, backoff: Backoff.Tracker)

  const Initial := State(false, Backoff.Initial)

  datatype Transition = Transition(state: State, actions: seq<Action>)

  /** `initializeCluster(options)`: resolve the worker count, then issue
      exactly that many plain starts in one tick. The counter is still 0, so
      none of them is delayed and none changes it. */
  function Initialize(explicit: Option<int>, env: Option<int>, cpus: nat): (t: Transition)
    ensures t.state == Initial
    ensures |t.actions| == WorkerCount.ResolveWorkerCount(explicit, env, cpus)
    ensures forall i :: 0 <= i < |t.actions| ==> t.actions[i] == SpawnWorker(false, 0)
  {
    var n := WorkerCount.ResolveWorkerCount(explicit, env, cpus);
    var starts := Backoff.PlainStarts(Backoff.Initial, n);
    Transition(State(false, starts.tracker),
               seq(n, i requires 0 <= i < n => SpawnWorker(false, starts.delays[i])))
  }

  /** One event. */
  function Step(s: State, e: Event): (t: Transition)
    ensures t.state.reloadInProgress != s.reloadInProgress ==>
              (e == Received(SIGHUP) && t.state.reloadInProgress) || (e == ReloadResolved && !t.state.reloadInProgress)
    ensures StartReload in t.actions <==> e == Received(SIGHUP) && !s.reloadInProgress
    ensures t.state.backoff.restarts > s.backoff.restarts ==> e.WorkerExited? && !e.plannedExit
    ensures (exists a :: a in t.actions && a.SpawnWorker?) <==> e.WorkerExited? && !e.plannedExit
    ensures e == MinuteElapsed ==> t == Transition(s.(backoff := Backoff.Tick(s.backoff)), [])
    ensures e == ReloadResolved ==> t == Transition(s.(reloadInProgress := false), [])
    ensures ExitProcess(0) in t.actions <==> e == ShutdownResolved
    ensures ShutdownAll in t.actions <==> e.Received? && e.sig != SIGHUP
  {
    match e
    case Received(sig) =>
      if sig == SIGHUP then
        if s.reloadInProgress then Transition(s, [])
        else Transition(s.(reloadInProgress := true), [StartReload])
      else Transition(s, [ShutdownAll])
    case WorkerExited(planned, _, _) =>
      if planned then Transition(s, [])
      else
        var d := Backoff.Start(s.backoff, true);
        assert [SpawnWorker(true, d.delay)][0].SpawnWorker?;
        Transition(s.(backoff := d.tracker), [SpawnWorker(true, d.delay)])
    case ReloadResolved => Transition(s.(reloadInProgress := false), [])
    case ShutdownResolved => Transition(s, [ExitProcess(0)])
    case MinuteElapsed => Transition(s.(backoff := Backoff.Tick(s.backoff)), [])
  }

  function Run(s: State, es: seq<Event>): Transition
    decreases |es|
  {
    if |es| == 0 then Transition(s, [])
    else
      var first := Step(s, es[0]);
      var rest := Run(first.state, es[1..]);
      Transition(rest.state, first.actions + rest.actions)
  }

  /** An exit after a planned disconnect changes nothing and restarts nothing. */
  lemma PlannedExitNeverRestarts(s: State, code: Option<int>, signal: Option<string>)
    ensures Step(s, WorkerExited(true, code, signal)) == Transition(s, [])
  {
  }

  /** Any other exit, by signal or by code alike, issues exactly one
      error-triggered start, records one death, and delays that start by the
      delay of the incremented counter. */
  lemma UnplannedExitRestartsOnce(s: State, code: Option<int>, signal: Option<string>)
    ensures Step(s, WorkerExited(false, code, signal)).actions
            == [SpawnWorker(true, Backoff.RestartDelay(s.backoff.restarts + 1))]
    ensures Step(s, WorkerExited(false, code, signal)).state
            == s.(backoff := Backoff.Tracker(s.backoff.restarts + 1))
    ensures Step(s, WorkerExited(false, code, signal)) == Step(s, WorkerExited(false, None, None))
  {
  }

  /** SIGTERM and SIGINT are handled identically: a shutdown of all
      workers, and exit code 0 once it has resolved. */
  lemma TerminateSignalsAgree(s: State)
    ensures Step(s, Received(SIGTERM)) == Step(s, Received(SIGINT))
    ensures Step(s, Received(SIGTERM)) == Transition(s, [ShutdownAll])
    ensures Step(s, ShutdownResolved) == Transition(s, [ExitProcess(0)])
  {
  }

  /** A SIGHUP during a reload is ignored. */
  lemma HangupWhileReloadingIgnored(s: State)
    requires s.reloadInProgress
    ensures Step(s, Received(SIGHUP)) == Transition(s, [])
  {
  }

  /** A SIGHUP while idle raises the flag and starts exactly one reload. */
  lemma HangupWhileIdleStartsOneReload(s: State)
    requires !s.reloadInProgress
    ensures Step(s, Received(SIGHUP)) == Transition(s.(reloadInProgress := true), [StartReload])
  {
  }

  function Reloads(actions: seq<Action>): nat
    decreases |actions|
  {
    if |actions| == 0 then 0
    else (if actions[0] == StartReload then 1 else 0) + Reloads(actions[1..])
  }

  function Resolutions(es: seq<Event>): nat
    decreases |es|
  {
    if |es| == 0 then 0
    else (if es[0] == ReloadResolved then 1 else 0) + Resolutions(es[1..])
  }

  lemma {:induction false} ReloadsAppend(a: seq<Action>, b: seq<Action>)
    ensures Reloads(a + b) == Reloads(a) + Reloads(b)
    decreases |a|
  {
    if |a| == 0 {
      assert a + b == b;
    } else {
      assert (a + b)[1..] == a[1..] + b;
      ReloadsAppend(a[1..], b);
    }
  }

  lemma StepReloads(s: State, e: Event)
    ensures Reloads(Step(s, e).actions) == (if e == Received(SIGHUP) && !s.reloadInProgress then 1 else 0)
  {
  }

  /** Once raised, the flag stays raised and no further reload starts until
      a reload resolves. */
  lemma {:induction false} FlagHeldUntilResolved(s: State, es: seq<Event>)
    requires s.reloadInProgress
    requires forall k :: 0 <= k < |es| ==> es[k] != ReloadResolved
    ensures Run(s, es).state.reloadInProgress
    ensures Reloads(Run(s, es).actions) == 0
    decreases |es|
  {
    if |es| > 0 {
      var first := Step(s, es[0]);
      StepReloads(s, es[0]);
      FlagHeldUntilResolved(first.state, es[1..]);
      ReloadsAppend(first.actions, Run(first.state, es[1..]).actions);
    }
  }

  /** Reentrancy over any run: the reloads started never exceed the reloads
      resolved by more than one, so at most one reload is ever in flight. */
  lemma {:induction false} ReloadsBoundedByResolutions(s: State, es: seq<Event>)
    ensures Reloads(Run(s, es).actions) + (if s.reloadInProgress then 1 else 0)
            <= Resolutions(es) + (if Run(s, es).state.reloadInProgress then 1 else 0)
    decreases |es|
  {
    if |es| > 0 {
      var first := Step(s, es[0]);
      StepReloads(s, es[0]);
      ReloadsBoundedByResolutions(first.state, es[1..]);
      ReloadsAppend(first.actions, Run(first.state, es[1..]).actions);
    }
  }

  /** `start(true).catch(log)`: however the restart's promise settles, the
      handler's own promise never rejects. */
  function RestartOutcome(p: Promises.Settlement<WorkerId>): (r: Promises.Settlement<Option<WorkerId>>)
    ensures !r.Rejected?
    ensures Promises.Settled(r) <==> Promises.Settled(p)
  {
    Promises.Catch(p)
  }

  /** With no recent deaths, a worker killed by a signal gets exactly one
      replacement, started immediately, and the death counter reads 1. */
  lemma FirstCrashRestartsImmediately()
    ensures Step(Initial, WorkerExited(false, None, Some("SIGKILL")))
            == Transition(State(false, Backoff.Tracker(1)), [SpawnWorker(true, 0)])
  {
  }
}

=== FILE: worker_count.dfy ===
/** How many workers the supervisor spawns at startup
    (cluster-magic.js, `_numDefaultWorkers` and `initializeCluster`). */
module WorkerCount {
  import opened Wrappers

  const MinWorkers: int := 2
  const MaxWorkers: int := 50

  /** Twice the CPU count, computed once at load time; it is never clamped. */
  function DefaultWorkers(cpus: nat): nat
  {
    2 * cpus
  }

  /** JavaScript truthiness of a number: 0, NaN and `undefined` are falsy. */
  predicate Truthy(x: Option<int>)
  {
    x.Some? && x.value != 0
  }

  predicate InRange(n: int)
  {
    MinWorkers <= n <= MaxWorkers
  }

  /** `options.numWorkers || parseInt(process.env.NUM_WORKERS + '') || 0`:
      the first truthy operand, else 0. */
  function Requested(explicit: Option<int>, env: Option<int>): int
  {
    if Truthy(explicit) then explicit.value
    else if Truthy(env) then env.value
    else 0
  }

  /** The number of workers spawned. `explicit` is `options.numWorkers`, `env`
      the parsed environment value (`None` when `parseInt` gives NaN). The
      result is never negative, so `Array(n)` never throws. */
  function ResolveWorkerCount(explicit: Option<int>, env: Option<int>, cpus: nat): (n: int)
    ensures n >= 0
    ensures InRange(n) || n == DefaultWorkers(cpus)
    ensures Truthy(explicit) && InRange(explicit.value) ==> n == explicit.value
    ensures Truthy(explicit) && !InRange(explicit.value) ==> n == DefaultWorkers(cpus)
    ensures !Truthy(explicit) && Truthy(env) && InRange(env.value) ==> n == env.value
    ensures !Truthy(explicit) && !(Truthy(env) && InRange(env.value)) ==> n == DefaultWorkers(cpus)
  {
    var requested := Requested(explicit, env);
    if InRange(requested) then requested else DefaultWorkers(cpus)
  }

  /** A non-zero explicit count inside [2,50] is used unchanged, whatever the
      environment says. */
  lemma ExplicitInRangeIsUsed(v: int, env: Option<int>, cpus: nat)
    requires MinWorkers <= v <= MaxWorkers
    ensures ResolveWorkerCount(Some(v), env, cpus) == v
  {
  }

  /** An explicit count of 0, or none at all, defers to the environment. */
  lemma FalsyExplicitDefersToEnv(explicit: Option<int>, env: Option<int>, cpus: nat)
    requires explicit == None || explicit == Some(0)
    ensures ResolveWorkerCount(explicit, env, cpus) == ResolveWorkerCount(None, env, cpus)
    ensures Truthy(env) && InRange(env.value) ==> ResolveWorkerCount(explicit, env, cpus) == env.value
  {
  }

  /** With neither a usable explicit count nor a parsable non-zero
      environment value the count falls to `|| 0`, and 0 yields the default. */
  lemma NothingConfiguredYieldsDefault(explicit: Option<int>, env: Option<int>, cpus: nat)
    requires !Truthy(explicit) && !Truthy(env)
    ensures Requested(explicit, env) == 0
    ensures ResolveWorkerCount(explicit, env, cpus) == DefaultWorkers(cpus)
  {
  }

  /** A non-zero explicit count outside [2,50] is replaced by the default and
      does NOT fall back to the environment value. */
  lemma ExplicitOutOfRangeIgnoresEnv(v: int, env: Option<int>, cpus: nat)
    requires v != 0 && !InRange(v)
    ensures ResolveWorkerCount(Some(v), env, cpus) == DefaultWorkers(cpus)
  {
  }

  /** The result lies in [2,50] exactly when the requested count does or the
      default does: the default is not clamped, so on a machine with more
      than 25 CPUs the count exceeds 50, and with no CPUs reported it is 0. */
  lemma InRangeExactly(explicit: Option<int>, env: Option<int>, cpus: nat)
    ensures InRange(ResolveWorkerCount(explicit, env, cpus))
        <==> InRange(Requested(explicit, env)) || InRange(DefaultWorkers(cpus))
    ensures ResolveWorkerCount(None, None, 26) == 52
    ensures ResolveWorkerCount(None, None, 0) == 0
  {
  }
}

=== FILE: wrappers.dfy ===
/** Optional values. In this model `None` stands for JavaScript's `undefined`
    and, where the value is a number, for NaN. */
module Wrappers {

  datatype Option<+T> = None | Some(value: T)
}
